=== FILE: README.md ===
# Twin Stick: the player's bounce rule, in Dafny

The program draws one white rectangle, the player, in a 1600 × 1200
window. On every frame the host calls the game's update, and the player moves
horizontally by its speed. When it reaches the right edge of the arena
(x = 1590, the screen width less a 10-pixel buffer) or the left margin
(x = 10), it turns around. This project models that per-frame motion rule and
proves its properties.

- `motion.dfy`, module `Motion`, holds the screen constants and Rust's
  `u32`/`u8` as bounded integer types. It also holds the two-state
  `Direction`, the `Pose` (x and direction) that a frame changes, and
  closed-form step functions: `StepRight`, `StepLeft`, `Step` and `Run` (n
  frames). The file ends with lemmas about one step and n steps that hold for
  every width and speed.
- `player.dfy`, module `Game`, holds the `Player` class with the source's
  fields. Its `Update`, `UpdatePosRight` and `UpdatePosLeft` methods clamp and
  step as the source does, in place. Each one is proved to end in the state
  the closed form gives. The `State` class builds the initial player
  (`State::new`) and forwards the host's per-frame update.
- `trajectory.dfy`, module `Trajectory`, covers the run the program actually
  performs: the player created by `State::new(10, 10)`, with width 50 and
  speed 25, facing right. It proves the invariant of that run, its exact
  period of 122 frames, and its two bounces.

Each `Player` method's frame is ``this`x, this`lastDirection``, and
`State.Update`'s frame is ``player`x, player`lastDirection``. This states that
a frame writes nothing but `x` and the direction: `y`, `width`, `height` and
`speed` are never written.

Two behaviours of the code are easy to misread:
- The right bounce never reports the flush position. From x = 1535 the
  player is clamped to 1540 inside the call, steps back, and the frame
  reports 1515, facing left (`Trajectory.RightBounce`). At the margin the
  run turns at 15 and reports 35 (`Trajectory.LeftBounce`). So no frame of
  the run reports x = 1540, and after frame 0 none reports x = 10
  (`Trajectory.NeverClampedValue`, from `Trajectory.InvForever` and
  `Trajectory.FrameIsPhase`).
- The margin is not kept from every position. The left rule clamps only
  when x < speed, not when x < speed + 10. So a step from any x in
  [speed, speed + 10) other than x = 10 ends left of the margin
  (`Motion.LeftMarginConditional`). For example, speed 20 from x = 20
  reaches x = 0 (`Motion.LeftMarginBreach`), and speed 25 from x = 30 would
  reach x = 5. In the program's own run, which starts at x = 10 with speed
  25, a left-facing x is always 15 modulo 25, so this never happens
  (`Trajectory.InvForever`).

## Model

| member | source | states |
|---|---|---|
| `Game.Player.constructor` | src/main.rs:82-89 | the player holds exactly the given x, y, width, height, speed and direction |
| `Game.Player.Update` | src/main.rs:24-30 | runs the right rule exactly when the player faces right and the left rule otherwise; the new pose is `Step` of the old one; only `x` and the direction are written |
| `Game.Player.UpdatePosRight` | src/main.rs:32-43 | the clamp-then-step code ends at the closed-form right step and turns left exactly on `FlipsRight`; with speed > 0 and x + width + speed ≤ 1590, x grows by exactly the speed and the direction is kept; with x + width + speed > 1590, x becomes 1590 − width − speed and the direction left, never the clamped flush value when speed > 0; the right side always ends inside the edge; no subtraction underflows |
| `Game.Player.UpdatePosLeft` | src/main.rs:45-53 | for every u32 x the clamp-then-step code ends at the closed-form left step: if x < speed or x = 10, x becomes 10 + speed and the direction right; otherwise x becomes x − speed and the direction is kept; no subtraction underflows |
| `Game.State.New` | src/main.rs:81-95 | the new player is at (x, y), 50 × 50, speed 25, facing right |
| `Game.State.Update` | src/main.rs:99-102 | one host update advances the player by exactly one `Step` |
| `Motion.StepRight` | src/main.rs:32-43 | after a right step the rectangle's right side is never past x = 1590, for every width and speed |
| `Motion.StepLeft` | src/main.rs:45-53 | a left step that keeps facing left never moves right, and one that turns right never moves left |
| `Motion.Step` | src/main.rs:24-53 | a pose whose right side is inside the arena stays inside after any step |
| `Motion.Run` | src/main.rs:99-101 | the pose after n host updates, each one `Step`; its properties are stated by `Motion.RunOneMore` and `Motion.ContainedForever` |
| `Motion.RunOneMore` | src/main.rs:99-101 | n + 1 frames are n frames followed by one more `Step`, as the host's once-per-frame update gives |
| `Motion.LeftMarginConditional` | src/main.rs:46-48 | the left step ends below the margin if and only if speed ≤ x < speed + 10 and x ≠ 10 |
| `Motion.LeftMarginBreach` | src/main.rs:46-48 | with speed 20, a left step from x = 20 ends at x = 0 |
| `Motion.ContainedForever` | src/main.rs:32-53 | for any width and speed, once x + width ≤ 1590, it holds after every number of frames, so the sum compared at line 33 never overflows u32 |
| `Trajectory.InvStep` | src/main.rs:32-53 | for the initial player, one frame keeps the invariant: facing right, x ≡ 10 (mod 25) and 10 ≤ x ≤ 1535; facing left, x ≡ 15 (mod 25) and 15 ≤ x ≤ 1515 |
| `Trajectory.InvRun` | src/main.rs:32-53 | any run of the initial player that starts inside the invariant stays inside it |
| `Trajectory.InvForever` | src/main.rs:85-88 | every frame of the run from `State::new(10, 10)` satisfies the invariant, so 10 ≤ x and x + 50 < 1590 forever |
| `Trajectory.Simulate` | src/main.rs:114 | a game built by `State::new(10, 10)` and updated n times holds the pose `Frame(n)`; every update's overflow precondition is met |
| `Trajectory.Phase` | src/main.rs:32-53 | each pose in the period enumeration satisfies the invariant |
| `Trajectory.PhaseStep` | src/main.rs:32-53 | one frame moves one place along the 122-pose period, wrapping from (15, left) to (35, right) |
| `Trajectory.RunFromPhase` | src/main.rs:32-53 | n frames from place k of the period lead to place (k + n) mod 122 |
| `Trajectory.FrameIsPhase` | src/main.rs:85-88 | from frame 1 on, frame n of the run is place (n − 1) mod 122 of the period |
| `Trajectory.PeriodExact` | src/main.rs:32-53 | from frame 1 on, the run repeats after p frames if and only if p is a multiple of 122 |
| `Trajectory.NeverClampedValue` | src/main.rs:33-50 | no frame of the run reports the clamped flush x = 1540, and no frame after the first reports the clamped margin x = 10 |
| `Trajectory.RightBounce` | src/main.rs:33-41 | the run is at (1535, right) after frame 61 and at (1515, left) after frame 62 |
| `Trajectory.LeftBounce` | src/main.rs:46-51 | the run is at (15, left) after frame 122 and at (35, right) after frame 123 |

## Left out

- `Player::draw`, which builds a mesh and issues draw calls through the
  graphics library using floats, is not part of this model.
- The host's event handler is left out except for its per-frame call to
  update (`Game.State.Update`). That means the FPS print, clear, present and
  yield. Repetition over frames is modelled by `Motion.Run`.
- `main` is left out. It only configures the window and the event loop.
- The `gameover` flag and the `last_update` clock reading in `State` are left
  out. The motion never uses them.
- The unused graphics-context parameter of `update` is dropped.
- Game.Player.UpdatePosRight: requires that x + width + speed fits in a u32.
  On overflow the sum at line 33 panics in a debug build and wraps in a
  release build; the model covers neither. `Motion.ContainedForever` and
  `Trajectory.Simulate` show the condition holds once the player starts
  inside the arena.
- Game.Player.Update: requires the same for a right-facing player, for the
  same reason; neither the debug panic nor the release wrap-around is
  modelled.
- Game.State.Update: requires the same of its player, for the same reason;
  neither the debug panic nor the release wrap-around is modelled.
- The 1200-pixel screen height is declared but unused here. The program
  uses it only to size the window in `main`, which is left out. The
  vertical position never changes.

=== FILE: motion.dfy ===
/** The per-frame horizontal motion rule of the player rectangle, as pure
    values: the screen constants, the two-state direction machine, the
    closed form of one frame's step, and properties of one step and of
    n steps that hold for every width and speed. */
module Motion {

  /** Rust's `u32` and `u8`, as bounded integers. */
  type U32 = n: int | 0 <= n <= 0xFFFF_FFFF
  type U8 = n: int | 0 <= n <= 0xFF

  const U32Max: int := 0xFFFF_FFFF

  const ScreenWidth: U32 := 1600
  /** Only the window set-up uses the height; the motion rule never does. */
  const ScreenHeight: U32 := 1200
  const ScreenBuffer: U8 := 10

  /** The x at which the rectangle's right side is flush with the edge of the arena. */
  const RightEdge: U32 := ScreenWidth - ScreenBuffer
  /** The x at which the rectangle's left side is flush with the margin. */
  const LeftEdge: U32 := 0 + ScreenBuffer

  datatype Direction = Left | Right

  /** The part of a player that one frame may change. */
  datatype Pose = Pose(x: U32, dir: Direction)

  /** A right-moving player turns around on this frame: either one more
      step would cross the edge, or it is already flush with it. */
  predicate FlipsRight(x: U32, width: U8, speed: U8)
  {
    x + width + speed > RightEdge || x + width == RightEdge
  }

  /** A left-moving player turns around on this frame: either it is
      closer to 0 than one step, or it is already at the margin. */
  predicate FlipsLeft(x: U32, speed: U8)
  {
    x < speed || x == LeftEdge
  }

  /** One frame of a right-moving player, in closed form: on a flip the
      player ends one step back from the flush position and faces left;
      otherwise it advances by one step. Its right side never ends past
      the edge. */
  function StepRight(x: U32, width: U8, speed: U8): (r: Pose)
    ensures r.x + width <= RightEdge
  {
    if FlipsRight(x, width, speed) then Pose(RightEdge - width - speed, Left)
    else Pose(x + speed, Right)
  }

  /** One frame of a left-moving player, in closed form: on a flip the
      player ends one step right of the margin and faces right; otherwise
      it moves back by one step. */
  function StepLeft(x: U32, speed: U8): (r: Pose)
    ensures r.dir == Left ==> r.x <= x
    ensures r.dir == Right ==> x <= r.x
  {
    if FlipsLeft(x, speed) then Pose(LeftEdge + speed, Right)
    else Pose(x - speed, Left)
  }

  /** One frame: the rule for the direction the player is facing. A pose
      whose right side is inside the arena stays inside it. */
  function Step(p: Pose, width: U8, speed: U8): (r: Pose)
    ensures p.x + width <= RightEdge ==> r.x + width <= RightEdge
  {
    if p.dir == Right then StepRight(p.x, width, speed) else StepLeft(p.x, speed)
  }

  /** The pose after n frames: the host's repeated per-frame update. */
  function Run(p: Pose, width: U8, speed: U8, n: nat): Pose
    decreases n
  {
    if n == 0 then p else Run(Step(p, width, speed), width, speed, n - 1)
  }

  /** One more frame after n frames is n + 1 frames: the host's update
      applied to the pose it left behind. */
  lemma {:induction false} RunOneMore(p: Pose, width: U8, speed: U8, n: nat)
    ensures Run(p, width, speed, n + 1) == Step(Run(p, width, speed, n), width, speed)
    decreases n
  {
    if n > 0 {
      RunOneMore(Step(p, width, speed), width, speed, n - 1);
    }
  }

  /** The left guard compares x with the speed, not with the margin plus
      the speed, so the margin is kept only conditionally: the step ends
      left of the margin exactly when x lies in [speed, speed + margin)
      and is not the margin itself. */
  lemma LeftMarginConditional(x: U32, speed: U8)
    ensures StepLeft(x, speed).x < LeftEdge <==> speed <= x < speed + LeftEdge && x != LeftEdge
  {
  }

  /** A concrete case of the previous lemma: a speed of 20 from x = 20
      leaves the rectangle touching the screen's left border. */
  lemma LeftMarginBreach()
    ensures StepLeft(20, 20) == Pose(0, Left)
  {
  }

  /** Right containment holds after every frame once it holds at the
      start, whatever the width and speed; in particular the sum that the
      right rule compares never leaves the u32 range. */
  lemma {:induction false} ContainedForever(p: Pose, width: U8, speed: U8, n: nat)
    requires p.x + width <= RightEdge
    ensures Run(p, width, speed, n).x + width <= RightEdge
    ensures Run(p, width, speed, n).x + width + speed <= U32Max
    decreases n
  {
    if n > 0 {
      ContainedForever(Step(p, width, speed), width, speed, n - 1);
    }
  }
}

=== FILE: player.dfy ===
/** The player object and the game state that owns it. Each frame the
    host calls `State.Update`, which advances the player by one frame in
    place. */
module Game {
  import opened Motion

  class Player {
    var x: U32
    var y: U32
    var width: U8
    var height: U8
    var speed: U8
    var lastDirection: Direction

    /** The position and direction, the only state a frame changes. */
    function CurrentPose(): Pose
      reads this`x, this`lastDirection
    {
      Pose(x, lastDirection)
    }

    /** A player as a struct literal builds it. */
    constructor (x: U32, y: U32, width: U8, height: U8, speed: U8, lastDirection: Direction)
      ensures this.x == x && this.y == y && this.width == width && this.height == height
      ensures this.speed == speed && this.lastDirection == lastDirection
    {
      this.x := x;
      this.y := y;
      this.width := width;
      this.height := height;
      this.speed := speed;
      this.lastDirection := lastDirection;
    }

    /** One frame: the right rule when facing right, the left rule
        otherwise. Only x and the direction are written. */
    method Update()
      requires lastDirection == Right ==> x + width + speed <= U32Max
      modifies this`x, this`lastDirection
      ensures CurrentPose() == Step(old(CurrentPose()), width, speed)
    {
      if lastDirection == Right {
        UpdatePosRight();
      } else {
        UpdatePosLeft();
      }
    }

    /** Clamp flush to the right edge if one more step would cross it;
        then, if flush, step back and face left, else step forward. The
        position ends as the closed-form right step says; the direction
        turns left exactly on a flip and is otherwise left as it was. No
        subtraction here can go below zero. */
    method UpdatePosRight()
      requires x + width + speed <= U32Max
      modifies this`x, this`lastDirection
      ensures x == StepRight(old(x), width, speed).x
      ensures lastDirection == if FlipsRight(old(x), width, speed) then Left else old(lastDirection)
      ensures x + width <= RightEdge
      // no flip: one step forward, still inside the edge
      ensures speed > 0 && old(x) + width + speed <= RightEdge ==>
                x == old(x) + speed && lastDirection == old(lastDirection)
      // flip: one step back from flush, so the clamped flush value is never the result
      ensures old(x) + width + speed > RightEdge ==>
                x == RightEdge - width - speed && lastDirection == Left
      ensures speed > 0 && old(x) + width + speed > RightEdge ==> x + width < RightEdge
    {
      if x + width + speed > RightEdge {
        x := RightEdge - width;
      }
      if x + width != RightEdge {
        x := x + speed;
      } else {
        x := x - speed;
        lastDirection := Left;
      }
    }

    /** Clamp to the margin if closer to 0 than one step; then, if at the
        margin, step forward and face right, else step back. The position
        ends as the closed-form left step says; the direction turns right
        exactly on a flip and is otherwise left as it was. No subtraction
        here can go below zero, whatever x is. */
    method UpdatePosLeft()
      modifies this`x, this`lastDirection
      ensures x == StepLeft(old(x), speed).x
      ensures lastDirection == if FlipsLeft(old(x), speed) then Right else old(lastDirection)
      ensures old(x) < speed || old(x) == LeftEdge ==> x == LeftEdge + speed && lastDirection == Right
      ensures !(old(x) < speed || old(x) == LeftEdge) ==>
                x == old(x) - speed && lastDirection == old(lastDirection)
    {
      if x < speed {
        x := 0 + ScreenBuffer;
      }
      if x != 0 + ScreenBuffer {
        x := x - speed;
      } else {
        x := x + speed;
        lastDirection := Right;
      }
    }
  }

  /** The width, height and speed every game starts its player with. */
  const InitialWidth: U8 := 50
  const InitialHeight: U8 := 50
  const InitialSpeed: U8 := 25

  /** The game state the host drives. The game-over flag and the time of
      the last update are not part of this model. */
  class State {
    const player: Player

    /** A fresh player at (x, y) with the initial size and speed, facing right. */
    constructor New(x: U32, y: U32)
      ensures fresh(player)
      ensures player.CurrentPose() == Pose(x, Right) && player.y == y
      ensures player.width == InitialWidth && player.height == InitialHeight
      ensures player.speed == InitialSpeed
    {
      player := new Player(x, y, InitialWidth, InitialHeight, InitialSpeed, Right);
    }

    /** The host's per-frame callback: advance the player by one frame. */
    method Update()
      requires player.lastDirection == Right ==> player.x + player.width + player.speed <= U32Max
      modifies player`x, player`lastDirection
      ensures player.CurrentPose() == Step(old(player.CurrentPose()), player.width, player.speed)
    {
      player.Update();
    }
  }
}

=== FILE: trajectory.dfy ===
/** The concrete run the program performs: the player that `State.New(10, 10)`
    creates (width 50, speed 25, facing right at x = 10), advanced one
    frame per host update. */
module Trajectory {
  import opened Motion
  import Game

  /** The pose `State.New(10, 10)` gives the player. */
  const Start: Pose := Pose(10, Right)

  /** The number of frames after which the run repeats. */
  const Period: nat := 122

  /** The pose after n host updates. */
  function Frame(n: nat): Pose
  {
    Run(Start, Game.InitialWidth, Game.InitialSpeed, n)
  }

  /** The per-direction invariant of the run: facing right, x is 10 modulo
      25 and in [10, 1535]; facing left, x is 15 modulo 25 and in [15, 1515]. */
  predicate Inv(p: Pose)
  {
    (p.dir == Right ==> p.x % 25 == 10 && 10 <= p.x <= 1535) &&
    (p.dir == Left ==> p.x % 25 == 15 && 15 <= p.x <= 1515)
  }

  /** One frame keeps the invariant. */
  lemma InvStep(p: Pose)
    requires Inv(p)
    ensures Inv(Step(p, Game.InitialWidth, Game.InitialSpeed))
  {
    // Dafny proves this unaided; the quotient split below only makes the proof faster.
    var q := p.x / 25;
    assert p.x == 25 * q + p.x % 25;
    if p.dir == Right {
      if p.x > 1515 {
        assert q == 61;
      }
    } else if p.x < 25 {
      assert q == 0;
    }
  }

  /** Every frame of the run satisfies the invariant, so x stays within
      [10, 1535] forever, the right side never reaches the flush position
      1590, and the margin 10 is kept. */
  lemma {:induction false} InvForever(n: nat)
    ensures Inv(Frame(n))
    ensures LeftEdge <= Frame(n).x && Frame(n).x + Game.InitialWidth < RightEdge
  {
    InvRun(Start, n);
  }

  /** Any run of the initial player that starts inside the invariant stays inside it. */
  lemma {:induction false} InvRun(p: Pose, n: nat)
    requires Inv(p)
    ensures Inv(Run(p, Game.InitialWidth, Game.InitialSpeed, n))
    decreases n
  {
    if n > 0 {
      InvStep(p);
      InvRun(Step(p, Game.InitialWidth, Game.InitialSpeed), n - 1);
    }
  }

  /** The k-th pose of one period, counted from frame 1: 61 poses facing
      right from 35 to 1535, then 61 facing left from 1515 down to 15. */
  function Phase(k: nat): (p: Pose)
    requires k < Period
    ensures Inv(p)
  {
    if k < 61 then Pose(35 + 25 * k, Right) else Pose(1515 - 25 * (k - 61), Left)
  }

  /** One frame moves one place along the period, wrapping from the last
      left-facing pose (15) back to the first right-facing one (35). */
  lemma PhaseStep(k: nat)
    requires k < Period
    ensures Step(Phase(k), Game.InitialWidth, Game.InitialSpeed) == Phase((k + 1) % Period)
  {
    if k < 60 {
      assert (k + 1) % Period == k + 1;
    } else if k == 60 {
    } else if k < 121 {
      assert (k + 1) % Period == k + 1;
    } else {
      assert (k + 1) % Period == 0;
    }
  }

  lemma {:induction false} RunFromPhase(k: nat, n: nat)
    requires k < Period
    ensures Run(Phase(k), Game.InitialWidth, Game.InitialSpeed, n) == Phase((k + n) % Period)
    decreases n
  {
    if n > 0 {
      PhaseStep(k);
      var k' := (k + 1) % Period;
      assert Run(Phase(k), Game.InitialWidth, Game.InitialSpeed, n)
          == Run(Phase(k'), Game.InitialWidth, Game.InitialSpeed, n - 1);
      RunFromPhase(k', n - 1);
      if k + 1 < Period {
        assert k' + (n - 1) == k + n;
      } else {
        ModOf(k + n, (n - 1) / Period + 1, (n - 1) % Period);
      }
    }
  }

  /** From frame 1 on, the run is the period enumeration. */
  lemma FrameIsPhase(n: nat)
    requires n >= 1
    ensures Frame(n) == Phase((n - 1) % Period)
  {
    assert Step(Start, Game.InitialWidth, Game.InitialSpeed) == Phase(0);
    RunFromPhase(0, n - 1);
  }

  /** Distinct places in the period are distinct poses. */
  lemma PhaseInjective(i: nat, j: nat)
    requires i < Period && j < Period && Phase(i) == Phase(j)
    ensures i == j
  {
  }

  /** From frame 1 on, the run repeats after p frames exactly when p is a
      multiple of 122; in particular 122 is its least period. */
  lemma PeriodExact(n: nat, p: nat)
    requires n >= 1
    ensures Frame(n + p) == Frame(n) <==> p % Period == 0
  {
    FrameIsPhase(n);
    FrameIsPhase(n + p);
    var a := (n - 1) % Period;
    var b := (n - 1 + p) % Period;
    if p % Period == 0 {
      ModShift(n - 1, p);
    } else {
      ModShift(n - 1, p);
      if Frame(n + p) == Frame(n) {
        PhaseInjective(a, b);
      }
    }
  }

  /** Adding p moves a residue modulo the period exactly when p is not a multiple of it. */
  lemma ModShift(a: nat, p: nat)
    ensures (a + p) % Period == a % Period <==> p % Period == 0
  {
    var ra, rp := a % Period, p % Period;
    var qa, qp := a / Period, p / Period;
    if ra + rp < Period {
      ModOf(a + p, qa + qp, ra + rp);
    } else {
      ModOf(a + p, qa + qp + 1, ra + rp - Period);
    }
  }

  /** The remainder is determined by any quotient-remainder split. */
  lemma ModOf(n: nat, q: int, r: int)
    requires 0 <= r < Period && n == Period * q + r
    ensures n % Period == r
  {
  }

  /** The run never reports the clamped flush position 1540, and after
      frame 0 never reports the margin 10. */
  lemma NeverClampedValue(n: nat)
    ensures Frame(n).x != RightEdge - Game.InitialWidth
    ensures n >= 1 ==> Frame(n).x != LeftEdge
  {
    InvForever(n);
    if n >= 1 {
      FrameIsPhase(n);
    }
  }

  /** The program's own run on the objects: a game built by `State.New(10, 10)`
      and updated n times by the host holds the pose `Frame(n)`. Every
      update's overflow precondition is met along the way. */
  method Simulate(n: nat) returns (s: Game.State)
    ensures fresh(s) && fresh(s.player)
    ensures s.player.CurrentPose() == Frame(n)
  {
    s := new Game.State.New(10, 10);
    var i := 0;
    while i < n
      invariant 0 <= i <= n
      invariant fresh(s.player)
      invariant s.player.width == Game.InitialWidth && s.player.speed == Game.InitialSpeed
      invariant s.player.CurrentPose() == Frame(i)
    {
      InvForever(i);
      RunOneMore(Start, Game.InitialWidth, Game.InitialSpeed, i);
      s.Update();
      i := i + 1;
    }
  }

  /** The bounce at the right edge: the run turns left at 1535 and
      reports 1515 next, never the clamped 1540. */
  lemma RightBounce()
    ensures Frame(61) == Pose(1535, Right)
    ensures Frame(62) == Pose(1515, Left)
  {
    FrameIsPhase(61);
    FrameIsPhase(62);
  }

  /** The mirror at the margin: the run turns right at 15 and reports 35
      next, never the clamped 10. */
  lemma LeftBounce()
    ensures Frame(122) == Pose(15, Left)
    ensures Frame(123) == Pose(35, Right)
  {
    FrameIsPhase(122);
    FrameIsPhase(123);
  }
}
